=== FILE: README.md ===
# Haar wavelet core of imagehash, in Dafny

This project models `dwt.go` of the imagehash Go package. That file holds the Haar discrete
wavelet transform behind the perceptual hash, together with the small matrix helpers around it:
- **the Haar filter bank**: the `haar` coefficient pair;
- **the 1D forward and inverse transforms**: `DWT1d` and `iDWT1d`;
- **the multi-level 2D transforms**: `DWT2d` and `IDWT2d`, which work on a shrinking top-left
  square;
- **the helpers**:
  - `floorp2`: the largest power of two not above a value;
  - `flatten`;
  - `median`;
  - `extractSquareRegion`;
  - `min`.

How the Go constructs become Dafny:
- **Numbers.** Go's `float64` becomes exact `real`. The Haar constants are 0.5 and ±0.5, so dividing
  by them is multiplying by 2, and both round trips hold as exact identities.
- **Slices and mutation.** Slices become `seq<real>` and `seq<seq<real>>`. The procedures that
  mutate their argument in place become pure functions that return the new contents.
- **Panics.** The inputs on which Go would panic (an index out of range, a division by zero) are
  excluded by preconditions.

The modules:
- **`Haar`**: the filter bank, `WaveletCoefficients` and `haar`.
- **`Transform1d`**: `DWT1d` and `iDWT1d`. Each output slot is defined as the source computes it,
  from the `haar` taps. The contracts give the substituted formulas (average, half-difference, sum,
  difference). The two round trips are proved for even lengths. For odd lengths the model shows
  how the last sample is lost.
- **`Matrix`**: shape predicates and column extraction.
- **`PowerOfTwo`**: 2^k, divisibility by 2^k as repeated halving, and the integer-division facts
  behind the level sides.
- **`Transform2d`**: one level's row and column passes and their inverses. On top of them:
  - the multi-level forward and inverse transforms;
  - both 2D round trips;
  - "nothing outside the active square changes", per pass and across levels;
  - the exact output on a constant matrix.
- **`FloorPow2`**: `floorp2` on the 64-bit two's-complement pattern of a Go `int`, with Go's
  arithmetic right shift. Beside it sits a corrected version that adds the missing shift by 32.
- **`Sorting`**: the sorted copy that `median` reads from. It is specified abstractly as a sorted
  sequence with the same multiset of values, and shown to be unique.
- **`MatrixUtil`**: `flatten`, `extractSquareRegion`, `median` as written together with a corrected
  `median`, and `min`.

`median` is documented (dwt.go:120) as finding the median value, and its even branch reads the
sorted copy `temp`. For an odd length, though, the code returns the middle entry of the unsorted
input. The model follows the code, and the discrepancy is logged under Findings.

## Model

| member | source | states |
|---|---|---|
| Haar.PairReconstruction | dwt.go:7-23 | With the `haar` taps, the two inverse combinations, each divided by its tap as `iDWT1d` divides them, rebuild any pair (x, y) from its low and high outputs. A constant pair has low output x and high output 0 |
| Transform1d.ForwardAt | dwt.go:29-33 | Slot p of `DWT1d`'s buffer, computed from the `haar` taps: the average of pair p below n/2, the half-difference of pair p - n/2 up to the last full pair, and 0 in a slot the loop never writes |
| Transform1d.InverseAt | dwt.go:66-71 | Slot p of `iDWT1d`'s buffer, computed from the `haar` taps: for an even p in a full pair, the sum of coefficients p/2 and p/2 + n/2; for an odd p, their difference; 0 in a slot the loop never writes |
| Transform1d.Forward | dwt.go:26-35 | The output has the input's length. Slot i below n/2 is the average of samples 2i and 2i+1. Slot n/2 + i is half their difference. For an odd length the last slot is never written and stays 0 |
| Transform1d.ForwardSlots | dwt.go:20-33 | Substituting the `haar` taps 0.5, 0.5 and 0.5, -0.5 into the loop body gives exactly the average and half-difference formulas |
| Transform1d.Inverse | dwt.go:63-72 | The output has the input's length. Slot 2i is the sum of coefficients i and i + n/2, and slot 2i+1 is their difference. For an odd length the last slot stays 0 |
| Transform1d.InverseSlots | dwt.go:63-72 | Lifts the per-slot sum and difference formulas to the whole output |
| Transform1d.InversePair | dwt.go:66-70 | The pair of outputs written in iteration i holds the sum and the difference of coefficients i and i + n/2 |
| Transform1d.InverseForward | dwt.go:26-72 | For an even length, `iDWT1d` after `DWT1d` gives back the input exactly |
| Transform1d.ForwardInverseAt | dwt.go:26-72 | For an even length, `DWT1d` after `iDWT1d` gives back each entry |
| Transform1d.ForwardInverse | dwt.go:26-72 | For an even length, `DWT1d` after `iDWT1d` gives back the input exactly |
| Transform1d.OddLengthLosesLast | dwt.go:26-72 | For an odd length, the round trip puts 0 in the last slot, so it fails whenever the last sample is not 0 |
| Transform1d.ForwardConstant | dwt.go:27-33 | A constant signal c of any length transforms to c in the first n/2 slots and 0 everywhere else, the unwritten last slot of an odd length included |
| Matrix.Column | dwt.go:50-53 | The column buffer holds entry j of each of the first c rows |
| PowerOfTwo.Pow2 | dwt.go:41-42 | 2^k is at least 1. On a 64-bit `int`, Go's `dims / (1 << k)` equals dims / 2^k for every k <= 63: at k = 63 the shift gives -2^63, and both quotients of a non-negative `dims` are 0 |
| PowerOfTwo.SideHalves | dwt.go:41-42 | Dividing the side by 2^(k+1) is halving the side divided by 2^k |
| PowerOfTwo.HalvableIffDivisible | dwt.go:41-42 | A side can be halved k times without remainder exactly when 2^k divides it |
| Transform2d.ActiveSide | dwt.go:41-42 | The side worked on at level k, defined by halving once per level, never exceeds the matrix side |
| Transform2d.ActiveSideIsQuotient | dwt.go:41-42 | The side at level k is exactly the source's `dims / (1 << k)` |
| Transform2d.HalvableSide | dwt.go:40-42 | If the side can be halved L times, the side at level k can still be halved L - k times |
| Transform2d.SideEven | dwt.go:40-42 | When 2^L divides the side, every level below L works on a square of even side |
| Transform2d.SideMonotone | dwt.go:40-42 | Later levels never work on a larger square |
| Transform2d.Transpose | dwt.go:50-57 | Entry (i, j) of the block written back by the column loop is entry i of the j-th transformed column |
| Transform2d.Splice | dwt.go:44-57 | Writing a c x c block back changes only the top-left c x c square and keeps every row's length |
| Transform2d.SpliceColumns | dwt.go:50-57 | After the transformed columns are written back, column j of the square is exactly the j-th transformed column |
| Transform2d.RowPass | dwt.go:43-48 | Each of the first c rows has its first c entries replaced by their 1D transform. Everything else, shape included, is unchanged |
| Transform2d.ColPass | dwt.go:49-58 | Each of the first c columns, restricted to the square, is replaced by its 1D transform. Everything else is unchanged |
| Transform2d.InvColPass | dwt.go:80-89 | Each column of the square is replaced by its 1D inverse transform. Everything else is unchanged |
| Transform2d.InvRowPass | dwt.go:90-95 | Each row of the square is replaced by its 1D inverse transform. Everything else is unchanged |
| Transform2d.ForwardLevel | dwt.go:41-58 | One forward level (rows, then columns) keeps the shape and leaves everything outside the c x c square alone |
| Transform2d.InverseLevel | dwt.go:78-95 | One inverse level (columns, then rows) keeps the shape and leaves everything outside the c x c square alone |
| Transform2d.Forward | dwt.go:38-60 | `DWT2d` keeps the shape and never touches columns at or beyond the side. Level 0 is the identity |
| Transform2d.Inverse | dwt.go:75-97 | `IDWT2d` keeps the shape and never touches columns at or beyond the side. Level 0 is the identity |
| Transform2d.RowPassRoundTrip | dwt.go:43-95 | On an even-sided square, the inverse row pass undoes the row pass, and conversely |
| Transform2d.ColumnRoundTrip | dwt.go:49-89 | On an even-sided square, each entry is restored by the inverse column pass after the column pass |
| Transform2d.InvColumnRoundTrip | dwt.go:49-89 | On an even-sided square, each entry is restored by the column pass after the inverse column pass |
| Transform2d.ColPassRoundTripInside | dwt.go:49-89 | The inverse column pass after the column pass restores the whole square |
| Transform2d.InvColPassRoundTripInside | dwt.go:49-89 | The column pass after the inverse column pass restores the whole square |
| Transform2d.ColPassRoundTrip | dwt.go:49-89 | The inverse column pass undoes the column pass on the whole matrix |
| Transform2d.InvColPassRoundTrip | dwt.go:49-89 | The column pass undoes the inverse column pass on the whole matrix |
| Transform2d.LevelRoundTrip | dwt.go:41-95 | On an even-sided square, one inverse level undoes one forward level, and conversely |
| Transform2d.InverseForward | dwt.go:38-97 | When the side is divisible by 2^level, `IDWT2d` after `DWT2d` at the same level gives back the matrix |
| Transform2d.ForwardInverse | dwt.go:38-97 | When the side is divisible by 2^level, `DWT2d` after `IDWT2d` at the same level gives back the matrix |
| Transform2d.DetailsKept | dwt.go:40-58 | Once level k is reached, the coefficients outside its square are final: later levels never change them |
| Transform2d.RowPassOnConstant | dwt.go:43-48 | The row pass over a constant square puts the constant in the left half of each row and 0 in the right half |
| Transform2d.ColPassOnConstantColumn | dwt.go:49-58 | The column pass over a constant column puts the constant in its upper half and 0 in its lower half |
| Transform2d.ColPassOnConstantColumns | dwt.go:49-58 | After the row pass on a constant square, the column pass leaves the constant only in the top-left quarter |
| Transform2d.LevelOnConstant | dwt.go:43-58 | One level on a constant even-sided square puts the constant in the top-left quarter and 0 in the three detail quarters |
| Transform2d.LevelOnZeroPadded | dwt.go:40-58 | One level on a matrix that is constant in its c-square and 0 elsewhere leaves the constant only in the c/2-square |
| Transform2d.ForwardOnConstant | dwt.go:38-60 | A constant square matrix whose side is divisible by 2^level ends with the constant in the final top-left square and 0 everywhere else |
| FloorPow2.Asr | dwt.go:101-106 | Go's `>>` on a signed `int`: a non-negative pattern is shifted logically, and a negative one has bits 63-k .. 63 set |
| FloorPow2.TopBit | dwt.go:106 | `uint(val - (val >> 1))` maps 0 to 0, and on a non-empty, non-negative block of low ones leaves only its highest bit r, with r + r == s + 1 |
| FloorPow2.Smear | dwt.go:101-105 | The five OR-with-shift steps, in order. The arithmetic shifts keep the sign of `val` |
| FloorPow2.TopOfLowMask | dwt.go:106 | `s - (s >> 1)` of a non-negative block of low ones that covers `val` is the largest power of two not above `val` |
| FloorPow2.SmearCovers | dwt.go:101-105 | The OR-with-shift steps only add bits: every bit of `val` survives |
| FloorPow2.SmearIsLowMask | dwt.go:101-105 | Below 2^32 the five steps fill every bit under the highest set bit |
| FloorPow2.SmearHalfBelow | dwt.go:101-105 | On a positive value below 2^32 the steps set no bit above the highest bit of `val` |
| FloorPow2.SmearTopBit | dwt.go:100-106 | For 1 <= val < 2^32, the subtraction yields the largest power of two not above `val` |
| FloorPow2.Floorp2 | dwt.go:99-107 | `floorp2` as written. It maps 0 to 0, and for 1 <= val < 2^32 it returns a power of two p with p <= val < 2p |
| FloorPow2.Floorp2WrongFrom2To32 | dwt.go:101-106 | As written, 2^40 gives 2^40 - 2^8, which is not a power of two |
| FloorPow2.Floorp2OfNegative | dwt.go:100-106 | The arithmetic shifts spread the sign bit downwards: -1 gives 0, and the most negative int gives the pattern of -2^31 |
| FloorPow2.Floorp2Examples | dwt.go:99-107 | 1, 5, 8 and 17 give 1, 4, 8 and 16 |
| FloorPow2.SmearAllCovers | dwt.go:101-105 | With the shift by 32 added, the steps still keep every bit of `val` |
| FloorPow2.SmearAllIsLowMask | dwt.go:101-105 | With the shift by 32 added, the steps fill every bit under the highest set bit of any non-negative value |
| FloorPow2.SmearAllHalfBelow | dwt.go:101-105 | With the shift by 32 added, no bit above the highest bit of a positive `val` is set |
| FloorPow2.SmearAllTopBit | dwt.go:100-106 | With the shift by 32 added, the subtraction yields the largest power of two not above any positive `val` |
| FloorPow2.Floorp2Corrected | dwt.go:99-107 | It maps 0 to 0, and for every positive signed 64-bit value it returns a power of two p with p <= val < 2p |
| FloorPow2.SmearAllBelow2To32 | dwt.go:101-105 | Below 2^32 the extra shift by 32 changes nothing |
| FloorPow2.Floorp2AgreesBelow2To32 | dwt.go:99-107 | The as-written and corrected versions agree on every value below 2^32 |
| Sorting.Insert | dwt.go:124 | Insertion into a sorted sequence keeps it sorted and adds exactly one copy of the value |
| Sorting.Sort | dwt.go:122-124 | The sorted copy has the input's length and values, in non-decreasing order |
| Sorting.SortedUnique | dwt.go:122-124 | Two sorted sequences with the same multiset of values are equal, so the sorted copy is unique |
| Sorting.SortedCopyIsSort | dwt.go:122-124 | Every sorted permutation of the input is the one `Sort` computes |
| Sorting.CountPermutation | dwt.go:122-124 | How many values lie below or above a threshold depends only on the multiset of values |
| MatrixUtil.Flatten | dwt.go:110-118 | The result has n*n entries, n being the number of rows. It holds the rows one after another, and any remaining tail is 0 |
| MatrixUtil.Concat | dwt.go:112-116 | The rows end to end, as the offset loop copies them. The last row fills the final positions |
| MatrixUtil.ConcatLength | dwt.go:113-116 | Rows of equal width w laid end to end take |rows| * w positions |
| MatrixUtil.ConcatRow | dwt.go:113-116 | With equal-width rows, row i lands at offset i*w |
| MatrixUtil.RowMajor | dwt.go:111 | Position i*n + j of an n x n entry lies inside the n*n buffer |
| MatrixUtil.FlattenEntry | dwt.go:110-118 | Entry (i, j) of a square matrix lands at position i*n + j |
| MatrixUtil.FlattenSquare | dwt.go:110-118 | `flatten` of a square matrix is its row-major layout: flat[i*n + j] is data[i][j] for every i, j |
| MatrixUtil.ExtractSquareRegion | dwt.go:133-140 | The result is a width x width matrix whose entry (i, j) is the input's entry (i, j) |
| MatrixUtil.ExtractWhole | dwt.go:133-140 | Extracting the full side of a square matrix gives the matrix back |
| MatrixUtil.ExtractNested | dwt.go:133-140 | Extracting a v-corner of a w-corner is extracting the v-corner directly |
| MatrixUtil.MiddleAverageIsMedian | dwt.go:127-128 | The average of the two middle sorted values has at most half the values strictly below it and at most half strictly above |
| MatrixUtil.MiddleIsMedian | dwt.go:120-126 | The middle sorted value of an odd-length input has at most half the values strictly below it and at most half strictly above |
| MatrixUtil.EvenMiddleFacts | dwt.go:122-128 | For an even length, every sorted copy gives the same middle average, and it is a median value |
| MatrixUtil.OddMiddleFacts | dwt.go:122-126 | For an odd length, every sorted copy gives the same middle value. That value is one of the inputs and a median value |
| MatrixUtil.Median | dwt.go:121-130 | `median` as written. For an even length it returns the average of the two middle entries of the sorted copy, which is a median value. For an odd length it returns the middle entry of the UNSORTED input |
| MatrixUtil.MedianOddUnsorted | dwt.go:125-126 | As written, [3, 1, 2] has median 1, which two of the three values exceed |
| MatrixUtil.MedianCorrected | dwt.go:120-130 | For both parities the corrected median reads the sorted copy and returns a median value of the input. For an odd length that value is one of the inputs |
| MatrixUtil.MedianCorrectedOddExample | dwt.go:120-126 | The corrected median of [3, 1, 2] is 2 |
| MatrixUtil.MedianOddExample | dwt.go:121-130 | The median of [1, 2, 3] is 2, because that input is already sorted |
| MatrixUtil.MedianEvenExample | dwt.go:127-128 | The median of [1, 2, 3, 4] is 2.5 |
| MatrixUtil.Min | dwt.go:143-148 | The result is one of the two arguments and is not above either |

## Left out

Values:
- Floating-point rounding and IEEE semantics are not modelled. `float64` is exact `real`, so the
  model says nothing about NaN, infinities or rounding error in the transforms or in `median`.

Package state:
- `haar`: in Go, it is a package-level `var` (dwt.go:20), so package code could reassign its
  taps. Neither `dwt.go` nor `image.go` assigns it, so the model makes it a constant.

Go library code:
- The sort inside `median` (Go's `sort.Float64s`) is not modelled as an algorithm. The sorted copy
  is specified as the unique sorted permutation of the input. `Sorting.Sort` is insertion sort,
  and it only serves to show that such a copy exists.
- `image.go`, which decodes and resizes the image and computes luminance, is not part of this
  model.

Slices and mutation:
- In-place mutation is modelled as functions returning the new contents. Capacity and aliasing of
  Go slices are not modelled.

Integer width:
- Go's `int` is taken to be 64 bits wide. On a 32-bit `int`, `DWT2d` and `IDWT2d` would panic from
  level 33 on, because `1 << 32` is 0 there. The five shifts of `floorp2` would then already be
  correct for every positive value.

Panics, taken as preconditions:
- `DWT2d`/`IDWT2d`: `level <= 64`, because `1 << 64` is 0 and the division panics. Once any level
  runs, every row needs at least `len(data)` entries, because the column pass indexes them.
- `median`: the input must be non-empty.
- `extractSquareRegion`: the top-left corner must exist. The precondition bounds each row's
  length, while Go's `data[i][:width]` (dwt.go:137) checks the row's capacity: a shorter row with
  spare capacity does not panic in Go, and the model excludes it.
- `flatten`: the rows may hold at most n*n entries in all.

Narrowed types:
- Transform2d.Forward: a negative `level` is a no-op in Go. The model takes `level` as a `nat`.
- Transform2d.Inverse: every negative `level` except `math.MinInt64` is a no-op in Go. At
  `math.MinInt64`, `level - 1` (dwt.go:77) wraps around to `math.MaxInt64`, `1 << k` is 0, and the
  division at dwt.go:79 panics. The model takes `level` as a `nat`.
- MatrixUtil.Min: only the `int` instance of the generic `min` is modelled. The `uint` and
  `float64` instances differ only in the ordered type.
- MatrixUtil.ExtractSquareRegion: `width` is a `uint` in Go. The model takes it as a `nat`, which
  covers every width that does not panic.

Weaker results:
- FloorPow2.Asr: for a negative pattern the contract states that bits 63-k .. 63 are set, but not
  that the lower bits are the logical shift of `val`. The body computes them exactly, and the
  examples and lemmas about `floorp2` use the body.
- FloorPow2.Floorp2: the power-of-two guarantee is stated for values below 2^32 only. Above that,
  the as-written function is wrong (see Findings).
- Transform1d.InverseForward: the round trip is stated for even lengths only. For odd lengths,
  `Transform1d.OddLengthLosesLast` gives the exact loss.

## Findings

| source | as written | input that shows it | evidently intended | confidence | as-written member | corrected member |
|---|---|---|---|---|---|---|
| dwt.go:101-106 | The shifts stop at 16, so only the highest set bit and the 31 bits under it are set. Lower bits stay clear | `floorp2(1 << 40)` returns 2^40 - 2^8 = 0xFF_FFFF_FF00, which is not a power of two | The largest power of two not above `val` for every positive `int`, which needs one more step, `val |= val >> 32` | not executed | FloorPow2.Floorp2, FloorPow2.Floorp2WrongFrom2To32 | FloorPow2.Floorp2Corrected |
| dwt.go:125-126 | For an odd length `median` returns `data[len/2]` from the unsorted input, not from the sorted copy `temp` | `median([3, 1, 2])` returns 1, while the median is 2 | `temp[len/2]`, the middle of the sorted copy, as the doc comment and the even branch indicate | not executed | MatrixUtil.Median, MatrixUtil.MedianOddUnsorted | MatrixUtil.MedianCorrected |

=== FILE: floor_pow2.dfy ===
/** `floorp2`: the largest power of two not above a value, computed by bit smearing on the
    64-bit two's-complement pattern of a Go `int`. */
module FloorPow2 {

  /** A 64-bit word with exactly one bit set. */
  predicate IsPowerOfTwo(p: bv64) {
    p != 0 && p & (p - 1) == 0
  }

  /** `s` is a block of ones starting at bit 0 (2^(b+1) - 1 for some b, or 0). */
  predicate IsLowMask(s: bv64) {
    s & (s + 1) == 0
  }

  /** Go's `>>` on a signed `int`: an arithmetic shift, which copies the sign bit into the
      vacated positions. On a negative pattern it is the complement of the logical shift of
      the complement. A non-negative pattern is shifted logically. A negative one has bits
      63-k .. 63 set: it is at least the word whose top k+1 bits are the only ones set. */
  function Asr(v: bv64, k: bv64): (r: bv64)
    requires k < 64
    ensures v < 0x8000_0000_0000_0000 ==> r == v >> k
    ensures v >= 0x8000_0000_0000_0000 ==> r >= !(0xFFFF_FFFF_FFFF_FFFF >> (k + 1))
  {
    if v < 0x8000_0000_0000_0000 then v >> k else !(!v >> k)
  }

  /** The last step of `floorp2`, `val - (val >> 1)`; the conversion of the difference to
      `uint` keeps the bit pattern. On a non-empty, non-negative block of low ones it leaves
      only the highest of them, the bit just under s + 1. */
  function TopBit(s: bv64): (r: bv64)
    ensures s == 0 ==> r == 0
    ensures 0 < s < 0x8000_0000_0000_0000 && IsLowMask(s) ==> IsPowerOfTwo(r) && r + r == s + 1
  {
    s - Asr(s, 1)
  }

  /** Taking the highest bit of a non-negative low mask that covers `val` and whose lower
      half lies below `val` gives the largest power of two not above `val`. */
  lemma TopOfLowMask(s: bv64, val: bv64)
    requires s < 0x8000_0000_0000_0000 && IsLowMask(s)
    requires val & !s == 0 && s >> 1 < val
    ensures IsPowerOfTwo(TopBit(s))
    ensures TopBit(s) <= val < TopBit(s) + TopBit(s)
  {
  }

  // ---------------------------------------------------------------------------
  // As written: shifts by 1, 2, 4, 8 and 16

  /** The five OR-with-shift steps of `floorp2`. The arithmetic shifts copy the sign bit, so
      the sign of `val` is kept. */
  function Smear(val: bv64): (r: bv64)
    ensures (r < 0x8000_0000_0000_0000) == (val < 0x8000_0000_0000_0000)
  {
    var v1 := val | Asr(val, 1);
    var v2 := v1 | Asr(v1, 2);
    var v3 := v2 | Asr(v2, 4);
    var v4 := v3 | Asr(v3, 8);
    v4 | Asr(v4, 16)
  }

  /** The steps only add bits: `val` is covered by its smear. */
  lemma SmearCovers(val: bv64)
    ensures val & !Smear(val) == 0
  {
  }

  /** Below 2^32 the steps fill every bit under the highest one. */
  lemma SmearIsLowMask(val: bv64)
    requires val < 0x1_0000_0000
    ensures Smear(val) < 0x1_0000_0000 && IsLowMask(Smear(val))
  {
  }

  /** On a non-negative value the shifts never set a bit above the highest bit of `val`. */
  lemma SmearHalfBelow(val: bv64)
    requires 1 <= val < 0x1_0000_0000
    ensures Smear(val) >> 1 < val
  {
  }

  lemma SmearTopBit(val: bv64)
    requires 1 <= val < 0x1_0000_0000
    ensures IsPowerOfTwo(TopBit(Smear(val)))
    ensures TopBit(Smear(val)) <= val < TopBit(Smear(val)) + TopBit(Smear(val))
  {
    SmearCovers(val);
    SmearIsLowMask(val);
    SmearHalfBelow(val);
    TopOfLowMask(Smear(val), val);
  }

  lemma Floorp2Facts(val: bv64)
    ensures val == 0 ==> TopBit(Smear(val)) == 0
    ensures 1 <= val < 0x1_0000_0000 ==>
              var p := TopBit(Smear(val));
              IsPowerOfTwo(p) && p <= val < p + p
  {
    if val == 0 {
      assert Smear(0) == 0;
    } else if val < 0x1_0000_0000 {
      SmearTopBit(val);
    }
  }

  /** `floorp2` as written, on the bit pattern of a signed 64-bit int. The shifts stop at
      16, so the largest power of two not above `val` comes out only for values below
      2^32; 0 maps to 0. */
  function Floorp2(val: bv64): (p: bv64)
    ensures val == 0 ==> p == 0
    ensures 1 <= val < 0x1_0000_0000 ==> IsPowerOfTwo(p) && p <= val < p + p
  {
    Floorp2Facts(val);
    TopBit(Smear(val))
  }

  /** From 2^32 on the smearing leaves low bits clear and the result is not a power of two:
      2^40 gives 2^40 - 2^8. */
  lemma Floorp2WrongFrom2To32()
    ensures Floorp2(0x100_0000_0000) == 0xFF_FFFF_FF00
    ensures !IsPowerOfTwo(Floorp2(0x100_0000_0000))
  {
  }

  /** Negative arguments have no power of two below them: the arithmetic shifts spread the
      sign bit downwards, so -1 gives 0 and the most negative int gives 2^64 - 2^31. */
  lemma Floorp2OfNegative()
    ensures Floorp2(0xFFFF_FFFF_FFFF_FFFF) == 0
    ensures Floorp2(0x8000_0000_0000_0000) == 0xFFFF_FFFF_8000_0000
  {
  }

  /** Small values: 1, 5, 8 and 17 give 1, 4, 8 and 16. */
  lemma Floorp2Examples()
    ensures Floorp2(1) == 1
    ensures Floorp2(5) == 4
    ensures Floorp2(8) == 8
    ensures Floorp2(17) == 16
  {
  }

  // ---------------------------------------------------------------------------
  // Corrected: one more step, the shift by 32

  /** The smearing extended with the missing shift by 32. */
  function SmearAll(val: bv64): bv64 {
    var s := Smear(val);
    s | Asr(s, 32)
  }

  lemma SmearAllCovers(val: bv64)
    ensures val & !SmearAll(val) == 0
  {
  }

  /** With the shift by 32 the steps fill every bit under the highest one of any
      non-negative word. */
  lemma SmearAllIsLowMask(val: bv64)
    requires val < 0x8000_0000_0000_0000
    ensures SmearAll(val) < 0x8000_0000_0000_0000 && IsLowMask(SmearAll(val))
  {
  }

  lemma SmearAllHalfBelow(val: bv64)
    requires 1 <= val < 0x8000_0000_0000_0000
    ensures SmearAll(val) >> 1 < val
  {
  }

  lemma SmearAllTopBit(val: bv64)
    requires 1 <= val < 0x8000_0000_0000_0000
    ensures IsPowerOfTwo(TopBit(SmearAll(val)))
    ensures TopBit(SmearAll(val)) <= val < TopBit(SmearAll(val)) + TopBit(SmearAll(val))
  {
    SmearAllCovers(val);
    SmearAllIsLowMask(val);
    SmearAllHalfBelow(val);
    TopOfLowMask(SmearAll(val), val);
  }

  lemma Floorp2CorrectedFacts(val: bv64)
    ensures val == 0 ==> TopBit(SmearAll(val)) == 0
    ensures 1 <= val < 0x8000_0000_0000_0000 ==>
              var p := TopBit(SmearAll(val));
              IsPowerOfTwo(p) && p <= val < p + p
  {
    if val == 0 {
      assert SmearAll(0) == 0;
    } else if val < 0x8000_0000_0000_0000 {
      SmearAllTopBit(val);
    }
  }

  /** `floorp2` with the shift by 32 added: the largest power of two not above `val` for
      every positive signed 64-bit value. */
  function Floorp2Corrected(val: bv64): (p: bv64)
    ensures val == 0 ==> p == 0
    ensures 1 <= val < 0x8000_0000_0000_0000 ==> IsPowerOfTwo(p) && p <= val < p + p
  {
    Floorp2CorrectedFacts(val);
    TopBit(SmearAll(val))
  }

  /** Below 2^32 the smear is already a full low mask, so the extra shift by 32 adds
      nothing. */
  lemma SmearAllBelow2To32(val: bv64)
    requires val < 0x1_0000_0000
    ensures SmearAll(val) == Smear(val)
  {
    SmearIsLowMask(val);
  }

  /** Both versions agree below 2^32, the range of image sides `floorp2` is used on. */
  lemma Floorp2AgreesBelow2To32(val: bv64)
    requires val < 0x1_0000_0000
    ensures Floorp2(val) == Floorp2Corrected(val)
  {
    SmearAllBelow2To32(val);
  }
}

=== FILE: haar.dfy ===
/** The Haar filter bank: the two fixed 2-tap filters that define the transform. */
module Haar {

  /** A pair of 2-tap filters, low-pass (averaging) and high-pass (differencing). */
  datatype WaveletCoefficients = WaveletCoefficients(lowPass: seq<real>, highPass: seq<real>)

  /** The Haar coefficients used by every transform of this model. */
  const haar: WaveletCoefficients := WaveletCoefficients([0.5, 0.5], [0.5, -0.5])

  /** The filter bank on one pair (x, y). The low-pass tap sum a keeps a constant pair and
      the high-pass tap sum b cancels it. The synthesis rules of the inverse transform,
      dividing by the first high-pass and first low-pass tap, rebuild x and y exactly. */
  lemma PairReconstruction(x: real, y: real)
    ensures var a := haar.lowPass[0] * x + haar.lowPass[1] * y;
            var b := haar.highPass[0] * x + haar.highPass[1] * y;
            (haar.lowPass[0] * a + haar.highPass[0] * b) / haar.highPass[0] == x &&
            (haar.lowPass[1] * a + haar.highPass[1] * b) / haar.lowPass[0] == y &&
            (x == y ==> a == x && b == 0.0)
  {
  }
}

=== FILE: matrix.dfy ===
/** Matrices as sequences of rows, and the shape facts the transforms rely on. */
module Matrix {

  type Matrix = seq<seq<real>>

  /** Every row is at least as long as the number of rows, so the top-left |m| x |m| square
      can be indexed. Square matrices are the common case; longer rows are allowed and their
      extra entries are never touched. */
  ghost predicate Wide(m: Matrix) {
    forall i :: 0 <= i < |m| ==> |m[i]| >= |m|
  }

  /** Every row has exactly as many entries as there are rows. */
  ghost predicate Square(m: Matrix) {
    forall i :: 0 <= i < |m| ==> |m[i]| == |m|
  }

  /** The top-left c x c square of `m` can be indexed. */
  ghost predicate CoversSquare(m: Matrix, c: nat) {
    c <= |m| && forall i :: 0 <= i < c ==> |m[i]| >= c
  }

  /** Same number of rows, and row by row the same length. */
  ghost predicate SameShape(a: Matrix, b: Matrix) {
    |a| == |b| && forall i :: 0 <= i < |a| ==> |a[i]| == |b[i]|
  }

  /** `a` and `b` agree everywhere outside their top-left c x c square. */
  ghost predicate SameOutside(a: Matrix, b: Matrix, c: nat)
    requires SameShape(a, b)
  {
    forall i, j :: 0 <= i < |a| && 0 <= j < |a[i]| && !(i < c && j < c) ==> a[i][j] == b[i][j]
  }

  /** The first c entries of column j. */
  function Column(m: Matrix, j: nat, c: nat): (col: seq<real>)
    requires CoversSquare(m, c) && j < c
    ensures |col| == c
    ensures forall i :: 0 <= i < c ==> col[i] == m[i][j]
  {
    seq(c, i requires 0 <= i < c => m[i][j])
  }

  /** A matrix of the same shape as a wide one is wide. */
  lemma WideOfSameShape(a: Matrix, b: Matrix)
    requires SameShape(a, b) && Wide(b)
    ensures |a| == |b| && Wide(a)
  {
  }

  /** A matrix of the same shape as a square one is square. */
  lemma SquareOfSameShape(a: Matrix, b: Matrix)
    requires SameShape(a, b) && Square(b)
    ensures |a| == |b| && Square(a)
  {
  }

  /** A column equal to `col` holds col[i] in row i. */
  lemma ColumnEntry(m: Matrix, c: nat, i: nat, j: nat, col: seq<real>)
    requires CoversSquare(m, c) && i < c && j < c
    requires Column(m, j, c) == col
    ensures m[i][j] == col[i]
  {
  }
}

=== FILE: matrix_util.dfy ===
/** The small helpers around the transform: flattening, top-left extraction, median, minimum. */
module MatrixUtil {
  import opened Matrix
  import opened PowerOfTwo
  import opened Sorting

  // ---------------------------------------------------------------------------
  // flatten

  /** The rows laid end to end, in order, as the copy loop of `flatten` writes them: the
      offset grows by each row's length, so the last row fills the final positions. */
  function Concat(rows: Matrix): (flat: seq<real>)
    ensures |rows| > 0 ==> |rows[|rows| - 1]| <= |flat|
    ensures |rows| > 0 ==> flat[|flat| - |rows[|rows| - 1]|..] == rows[|rows| - 1]
    decreases |rows|
  {
    if |rows| == 0 then [] else rows[0] + Concat(rows[1..])
  }

  /** `flatten`: a zero-filled buffer of n*n entries (n the number of rows) into which the
      rows are copied one after another. Copying past the end of the buffer panics, so the
      rows may hold at most n*n entries in all; when they hold fewer, the tail stays 0. */
  function Flatten(data: Matrix): (flat: seq<real>)
    requires |Concat(data)| <= |data| * |data|
    ensures |flat| == |data| * |data|
    ensures forall p :: 0 <= p < |Concat(data)| ==> flat[p] == Concat(data)[p]
    ensures forall p :: |Concat(data)| <= p < |flat| ==> flat[p] == 0.0
  {
    var c := Concat(data);
    c + seq(|data| * |data| - |c|, _ => 0.0)
  }

  lemma MulSucc(i: nat, w: nat)
    requires i > 0
    ensures i * w == w + (i - 1) * w
  {
  }

  /** i*n + j stays inside an n*n buffer. */
  lemma MulBound(i: nat, j: nat, n: nat)
    requires i < n && j < n
    ensures i * n + j < n * n
  {
    assert i * n <= (n - 1) * n by { MulMono(i, n - 1, n); }
    MulSucc(n, n);
  }

  /** When every row has w entries the concatenation has |rows| * w entries. */
  lemma {:induction false} ConcatLength(rows: Matrix, w: nat)
    requires forall i :: 0 <= i < |rows| ==> |rows[i]| == w
    ensures |Concat(rows)| == |rows| * w
    decreases |rows|
  {
    if |rows| > 0 {
      ConcatLength(rows[1..], w);
      MulSucc(|rows|, w);
    }
  }

  /** A block of w entries at offset (i-1)*w in `rest` sits at offset i*w once a first
      row of w entries is put in front. */
  lemma ShiftRow(first: seq<real>, rest: seq<real>, w: nat, i: nat, row: seq<real>)
    requires |first| == w && i > 0
    requires (i - 1) * w + w <= |rest| && rest[(i - 1) * w .. (i - 1) * w + w] == row
    ensures i * w + w <= |first + rest| && (first + rest)[i * w .. i * w + w] == row
  {
  }

  /** When every row has w entries, row i occupies positions i*w .. i*w + w - 1. */
  lemma {:induction false} ConcatRow(rows: Matrix, w: nat, i: nat)
    requires forall k :: 0 <= k < |rows| ==> |rows[k]| == w
    requires i < |rows|
    ensures |Concat(rows)| == |rows| * w
    ensures i * w + w <= |Concat(rows)|
    ensures Concat(rows)[i * w .. i * w + w] == rows[i]
    decreases i
  {
    ConcatLength(rows, w);
    var tail := rows[1..];
    var rest := Concat(tail);
    assert Concat(rows) == rows[0] + rest;
    if i > 0 {
      ConcatRow(tail, w, i - 1);
      assert tail[i - 1] == rows[i];
      ShiftRow(rows[0], rest, w, i, rows[i]);
    } else {
      assert (rows[0] + rest)[..w] == rows[0];
    }
  }

  /** Position of entry (i, j) of an n x n matrix in row-major order. */
  function RowMajor(i: nat, j: nat, n: nat): (p: nat)
    requires i < n && j < n
    ensures p < n * n
  {
    MulBound(i, j, n);
    i * n + j
  }

  lemma {:induction false} FlattenEntry(data: Matrix, i: nat, j: nat)
    requires Square(data) && i < |data| && j < |data|
    ensures |Concat(data)| == |data| * |data|
    ensures Flatten(data)[RowMajor(i, j, |data|)] == data[i][j]
  {
    var n := |data|;
    ConcatRow(data, n, i);
    assert Concat(data)[i * n .. i * n + n][j] == Concat(data)[i * n + j];
  }

  /** Row-major layout of a square matrix: entry (i, j) lands at position i*n + j, where n
      is the side. */
  lemma {:induction false} FlattenSquare(data: Matrix)
    requires Square(data)
    ensures |Concat(data)| == |data| * |data|
    ensures forall i, j :: 0 <= i < |data| && 0 <= j < |data| ==>
              Flatten(data)[RowMajor(i, j, |data|)] == data[i][j]
  {
    ConcatLength(data, |data|);
    forall i, j | 0 <= i < |data| && 0 <= j < |data|
      ensures Flatten(data)[RowMajor(i, j, |data|)] == data[i][j]
    {
      FlattenEntry(data, i, j);
    }
  }

  // ---------------------------------------------------------------------------
  // extractSquareRegion

  /** `extractSquareRegion`: a fresh width x width matrix copied from the top-left corner.
      Indexing a missing row or slicing a row past its end panics, so the corner must exist. */
  function ExtractSquareRegion(data: Matrix, width: nat): (r: Matrix)
    requires CoversSquare(data, width)
    ensures |r| == width && Square(r)
    ensures forall i, j :: 0 <= i < width && 0 <= j < width ==> r[i][j] == data[i][j]
  {
    seq(width, i requires 0 <= i < width => data[i][..width])
  }

  /** Extracting the whole of a square matrix gives the matrix back. */
  lemma ExtractWhole(data: Matrix)
    requires Square(data)
    ensures ExtractSquareRegion(data, |data|) == data
  {
    var r := ExtractSquareRegion(data, |data|);
    forall i | 0 <= i < |data|
      ensures r[i] == data[i]
    {
    }
  }

  /** Extracting a smaller corner of an extracted corner is extracting the smaller corner. */
  lemma ExtractNested(data: Matrix, w: nat, v: nat)
    requires CoversSquare(data, w) && v <= w
    ensures ExtractSquareRegion(ExtractSquareRegion(data, w), v) == ExtractSquareRegion(data, v)
  {
    var a := ExtractSquareRegion(ExtractSquareRegion(data, w), v);
    var b := ExtractSquareRegion(data, v);
    forall i | 0 <= i < v
      ensures a[i] == b[i]
    {
    }
  }

  // ---------------------------------------------------------------------------
  // median

  /** At most half of the values lie strictly below `x` and at most half strictly above. */
  ghost predicate IsMedianValue(data: seq<real>, x: real) {
    CountBelow(data, x) <= |data| / 2 && CountAbove(data, x) <= |data| / 2
  }

  /** The entry in the middle of an odd-length sequence. */
  function Middle(t: seq<real>): real
    requires |t| % 2 == 1
  {
    t[|t| / 2]
  }

  /** The average of the two entries in the middle of a non-empty even-length sequence,
      computed as `median` computes it: half of their sum. */
  function MiddleAverage(t: seq<real>): real
    requires |t| > 0 && |t| % 2 == 0
  {
    0.5 * (t[|t| / 2 - 1] + t[|t| / 2])
  }

  /** The average of the two middle entries of a sorted even-length sequence is a median
      value of every permutation of it. */
  lemma MiddleAverageIsMedian(data: seq<real>, t: seq<real>)
    requires IsSortedCopy(t, data) && |t| > 0 && |t| % 2 == 0
    ensures IsMedianValue(data, MiddleAverage(t))
  {
    var m := |t| / 2;
    var x := MiddleAverage(t);
    assert t[m - 1] <= t[m];
    SortedCountBelow(t, m, x);
    SortedCountAbove(t, m, x);
    CountPermutation(t, data, x);
    assert |t| == |multiset(t)| == |multiset(data)| == |data|;
  }

  /** The middle entry of a sorted odd-length sequence is a median value of every
      permutation of it. */
  lemma MiddleIsMedian(data: seq<real>, t: seq<real>)
    requires IsSortedCopy(t, data) && |t| % 2 == 1
    ensures IsMedianValue(data, Middle(t))
  {
    var m := |t| / 2;
    SortedCountBelow(t, m, t[m]);
    SortedCountAbove(t, m + 1, t[m]);
    CountPermutation(t, data, t[m]);
    assert |t| == |multiset(t)| == |multiset(data)| == |data|;
  }

  /** Facts about an even-length sorted copy `temp`: every sorted copy has the same two
      middle entries, and their average is a median value. */
  lemma EvenMiddleFacts(data: seq<real>, temp: seq<real>)
    requires IsSortedCopy(temp, data) && |temp| > 0 && |temp| % 2 == 0
    ensures forall t :: IsSortedCopy(t, data) ==> MiddleAverage(t) == MiddleAverage(temp)
    ensures IsMedianValue(data, MiddleAverage(temp))
  {
    forall t | IsSortedCopy(t, data)
      ensures MiddleAverage(t) == MiddleAverage(temp)
    {
      SortedUnique(t, temp);
    }
    MiddleAverageIsMedian(data, temp);
  }

  /** Facts about an odd-length sorted copy `temp`: every sorted copy has the same middle
      entry, it is one of the input's values, and it is a median value. */
  lemma OddMiddleFacts(data: seq<real>, temp: seq<real>)
    requires IsSortedCopy(temp, data) && |temp| % 2 == 1
    ensures forall t :: IsSortedCopy(t, data) ==> Middle(t) == Middle(temp)
    ensures Middle(temp) in data
    ensures IsMedianValue(data, Middle(temp))
  {
    forall t | IsSortedCopy(t, data)
      ensures Middle(t) == Middle(temp)
    {
      SortedUnique(t, temp);
    }
    MiddleIsMedian(data, temp);
    assert temp[|temp| / 2] in multiset(temp);
  }

  /** `median` as written. It sorts a copy of the input and averages the two middle entries
      of the copy for an even length, but for an odd length it returns the middle entry of
      the UNSORTED input. An empty input indexes position -1 and panics. */
  function Median(data: seq<real>): (r: real)
    requires |data| > 0
    ensures |data| % 2 == 1 ==> r == Middle(data)
    ensures |data| % 2 == 0 ==> forall t :: IsSortedCopy(t, data) ==> r == MiddleAverage(t)
    ensures |data| % 2 == 0 ==> IsMedianValue(data, r)
  {
    var temp := Sort(data);
    if |temp| % 2 == 1 then
      data[|data| / 2]
    else
      EvenMiddleFacts(data, temp);
      MiddleAverage(temp)
  }

  /** `median` as its doc comment (dwt.go:120) and its even branch (dwt.go:128) intend it:
      the odd branch also reads the sorted copy. Both parities then give a median value of
      the input. */
  function MedianCorrected(data: seq<real>): (r: real)
    requires |data| > 0
    ensures |data| % 2 == 1 ==> forall t :: IsSortedCopy(t, data) ==> r == Middle(t)
    ensures |data| % 2 == 1 ==> r in data
    ensures |data| % 2 == 0 ==> forall t :: IsSortedCopy(t, data) ==> r == MiddleAverage(t)
    ensures IsMedianValue(data, r)
  {
    var temp := Sort(data);
    if |temp| % 2 == 1 then
      OddMiddleFacts(data, temp);
      Middle(temp)
    else
      EvenMiddleFacts(data, temp);
      MiddleAverage(temp)
  }

  /** On [3, 1, 2] the odd branch returns 1, the entry in the middle of the unsorted input,
      although two of the three values lie above it. */
  lemma MedianOddUnsorted(data: seq<real>)
    requires data == [3.0, 1.0, 2.0]
    ensures Median(data) == 1.0
    ensures !IsMedianValue(data, 1.0)
  {
    var d1, d2, d3 := data[1..], data[2..], data[3..];
    assert d1[1..] == d2 && d2[1..] == d3 && |d3| == 0;
    assert CountAbove(d3, 1.0) == 0;
    assert CountAbove(d2, 1.0) == 1;
    assert CountAbove(d1, 1.0) == 1;
    assert CountAbove(data, 1.0) == 2;
  }

  /** The corrected median of [3, 1, 2] is the sorted middle, 2. */
  lemma MedianCorrectedOddExample(data: seq<real>)
    requires data == [3.0, 1.0, 2.0]
    ensures MedianCorrected(data) == 2.0
  {
    var t := [1.0, 2.0, 3.0];
    assert multiset(data) == multiset{3.0, 1.0, 2.0};
    assert multiset(t) == multiset{1.0, 2.0, 3.0};
    assert Sorted(t);
    assert IsSortedCopy(t, data);
    assert MedianCorrected(data) == Middle(t);
  }

  /** On [1, 2, 3], which is already sorted, the odd branch returns 2. */
  lemma MedianOddExample(data: seq<real>)
    requires data == [1.0, 2.0, 3.0]
    ensures Median(data) == 2.0
  {
  }

  /** On [1, 2, 3, 4] the even branch averages 2 and 3. */
  lemma MedianEvenExample(data: seq<real>)
    requires data == [1.0, 2.0, 3.0, 4.0]
    ensures Median(data) == 2.5
  {
    assert Sorted(data);
    assert IsSortedCopy(data, data);
    assert Median(data) == MiddleAverage(data);
    assert MiddleAverage(data) == 0.5 * (2.0 + 3.0);
  }

  // ---------------------------------------------------------------------------
  // min

  /** `min` at its `int` instance: the smaller argument, `y` on a tie. */
  function Min(x: int, y: int): (r: int)
    ensures r <= x && r <= y
    ensures r == x || r == y
  {
    if x < y then x else y
  }
}

=== FILE: power_of_two.dfy ===
/** Powers of two and the arithmetic of repeated halving. */
module PowerOfTwo {

  /** 2^k. */
  function Pow2(k: nat): (r: nat)
    ensures r >= 1
  {
    if k == 0 then 1 else 2 * Pow2(k - 1)
  }

  /** x / (2y) == (x / y) / 2 for natural x and positive y. */
  lemma DivDouble(x: nat, y: nat)
    requires y >= 1
    ensures x / (2 * y) == (x / y) / 2
  {
    var q := x / y;
    var r := x % y;
    var q2 := q / 2;
    var r2 := q % 2;
    assert x == q * y + r;
    assert q == 2 * q2 + r2;
    assert x == q2 * (2 * y) + (r2 * y + r);
    assert 0 <= r2 * y + r < 2 * y;
    DivUnique(x, 2 * y, q2, r2 * y + r);
  }

  /** The quotient is the unique q with x == q*d + r and 0 <= r < d. */
  lemma DivUnique(x: nat, d: nat, q: nat, r: nat)
    requires d >= 1 && x == q * d + r && r < d
    ensures x / d == q && x % d == r
  {
    var q', r' := x / d, x % d;
    assert q' * d + r' == q * d + r;
    MulStep(q', q, d);
    MulStep(q, q', d);
  }

  /** a < b means b*d is at least a whole d above a*d. */
  lemma MulStep(a: nat, b: nat, d: nat)
    ensures a < b ==> a * d + d <= b * d
  {
    if a < b {
      MulMono(a + 1, b, d);
      assert (a + 1) * d == a * d + d;
    }
  }

  lemma MulMono(a: nat, b: nat, d: nat)
    requires a <= b
    ensures a * d <= b * d
  {
  }

  /** Halving level by level: dims / 2^(k+1) is half of dims / 2^k. */
  lemma SideHalves(dims: nat, k: nat)
    ensures dims / Pow2(k + 1) == (dims / Pow2(k)) / 2
  {
    DivDouble(dims, Pow2(k));
  }

  /** `n` can be halved `k` times without remainder, that is, 2^k divides `n`
      (HalvableIffDivisible). */
  predicate Halvable(n: nat, k: nat) {
    k == 0 || (n % 2 == 0 && Halvable(n / 2, k - 1))
  }

  /** n is divisible by 2y exactly when it is even and its half is divisible by y. */
  lemma DivisibleByDouble(n: nat, y: nat)
    requires y >= 1
    ensures n % (2 * y) == 0 <==> n % 2 == 0 && (n / 2) % y == 0
  {
    if n % (2 * y) == 0 {
      var q := n / (2 * y);
      assert n == (q * y) * 2 + 0;
      DivUnique(n, 2, q * y, 0);
      DivUnique(n / 2, y, q, 0);
    }
    if n % 2 == 0 && (n / 2) % y == 0 {
      var q := (n / 2) / y;
      assert n == q * (2 * y) + 0;
      DivUnique(n, 2 * y, q, 0);
    }
  }

  lemma {:induction false} HalvableIffDivisible(n: nat, k: nat)
    ensures Halvable(n, k) <==> n % Pow2(k) == 0
  {
    if k > 0 {
      HalvableIffDivisible(n / 2, k - 1);
      DivisibleByDouble(n, Pow2(k - 1));
    }
  }

  /** What can be halved k times can be halved k - 1 times. */
  lemma {:induction false} HalvableFewer(n: nat, k: nat)
    requires k > 0 && Halvable(n, k)
    ensures Halvable(n, k - 1)
  {
    if k > 1 {
      HalvableFewer(n / 2, k - 1);
    }
  }
}

=== FILE: sorting.dfy ===
/** The sorted copy a median is read from, specified abstractly: a sorted sequence with the
    same multiset of values. Any sorting algorithm produces the same one. */
module Sorting {

  /** Non-decreasing order. */
  ghost predicate Sorted(s: seq<real>) {
    forall i, j :: 0 <= i < j < |s| ==> s[i] <= s[j]
  }

  /** `t` holds the values of `s`, each as often, in non-decreasing order. */
  ghost predicate IsSortedCopy(t: seq<real>, s: seq<real>) {
    |t| == |s| && Sorted(t) && multiset(t) == multiset(s)
  }

  /** Inserts `x` into a sorted sequence before the first larger-or-equal value. */
  function Insert(x: real, s: seq<real>): (r: seq<real>)
    requires Sorted(s)
    ensures |r| == |s| + 1 && Sorted(r)
    ensures multiset(r) == multiset(s) + multiset{x}
  {
    if |s| == 0 then [x]
    else if x <= s[0] then
      assert forall k :: 0 <= k < |s| ==> x <= s[k];
      [x] + s
    else
      var rest := Insert(x, s[1..]);
      assert s == [s[0]] + s[1..];
      ConsSorted(s[0], s[1..], x, rest);
      [s[0]] + rest
  }

  /** Putting y in front of a sorted permutation of s + [x] keeps it sorted when y is below
      x and every entry of s. */
  lemma ConsSorted(y: real, s: seq<real>, x: real, r: seq<real>)
    requires Sorted([y] + s) && y <= x
    requires Sorted(r) && multiset(r) == multiset(s) + multiset{x}
    ensures Sorted([y] + r)
  {
    forall k | 0 <= k < |r|
      ensures y <= r[k]
    {
      assert r[k] in multiset(r);
      if r[k] != x {
        assert r[k] in multiset(s);
        var i :| 0 <= i < |s| && s[i] == r[k];
        assert ([y] + s)[0] == y && ([y] + s)[i + 1] == s[i];
      }
    }
  }

  /** A sorted copy of `s`, by insertion. */
  function Sort(s: seq<real>): (t: seq<real>)
    ensures IsSortedCopy(t, s)
  {
    if |s| == 0 then []
    else
      assert s == [s[0]] + s[1..];
      Insert(s[0], Sort(s[1..]))
  }

  /** Two sorted sequences with the same values are equal: the sorted copy is unique. */
  lemma {:induction false} SortedUnique(a: seq<real>, b: seq<real>)
    requires Sorted(a) && Sorted(b)
    requires multiset(a) == multiset(b)
    ensures a == b
    decreases |a|
  {
    assert |a| == |multiset(a)| == |multiset(b)| == |b|;
    if |a| > 0 {
      assert a[0] in multiset(b);
      assert b[0] in multiset(a);
      var i :| 0 <= i < |b| && b[i] == a[0];
      var j :| 0 <= j < |a| && a[j] == b[0];
      assert a[0] <= a[j] && b[0] <= b[i];
      MultisetTail(a);
      MultisetTail(b);
      SortedUnique(a[1..], b[1..]);
    }
  }

  lemma MultisetTail(a: seq<real>)
    requires |a| > 0
    ensures multiset(a[1..]) == multiset(a) - multiset{a[0]}
  {
    assert a == [a[0]] + a[1..];
  }

  lemma MultisetRemove(b: seq<real>, j: nat)
    requires j < |b|
    ensures multiset(b[..j] + b[j + 1..]) == multiset(b) - multiset{b[j]}
  {
    assert b == b[..j] + [b[j]] + b[j + 1..];
  }

  /** Every sorted copy of `s` is the one Sort computes. */
  lemma SortedCopyIsSort(s: seq<real>)
    ensures forall t :: IsSortedCopy(t, s) ==> t == Sort(s)
  {
    forall t | IsSortedCopy(t, s)
      ensures t == Sort(s)
    {
      SortedUnique(t, Sort(s));
    }
  }

  // ---------------------------------------------------------------------------
  // Counting values below and above a threshold

  /** How many entries of `s` are strictly below `x`. */
  function CountBelow(s: seq<real>, x: real): (n: nat)
    ensures n <= |s|
  {
    if |s| == 0 then 0 else (if s[0] < x then 1 else 0) + CountBelow(s[1..], x)
  }

  /** How many entries of `s` are strictly above `x`. */
  function CountAbove(s: seq<real>, x: real): (n: nat)
    ensures n <= |s|
  {
    if |s| == 0 then 0 else (if s[0] > x then 1 else 0) + CountAbove(s[1..], x)
  }

  lemma {:induction false} CountAppend(a: seq<real>, b: seq<real>, x: real)
    ensures CountBelow(a + b, x) == CountBelow(a, x) + CountBelow(b, x)
    ensures CountAbove(a + b, x) == CountAbove(a, x) + CountAbove(b, x)
    decreases |a|
  {
    if |a| > 0 {
      assert (a + b)[1..] == a[1..] + b;
      CountAppend(a[1..], b, x);
    } else {
      assert a + b == b;
    }
  }

  /** Removing the entry at index j lowers each count by that entry's own contribution. */
  lemma CountRemove(b: seq<real>, j: nat, x: real)
    requires j < |b|
    ensures CountBelow(b, x) == CountBelow(b[..j] + b[j + 1..], x) + (if b[j] < x then 1 else 0)
    ensures CountAbove(b, x) == CountAbove(b[..j] + b[j + 1..], x) + (if b[j] > x then 1 else 0)
  {
    assert b == b[..j] + ([b[j]] + b[j + 1..]);
    CountAppend(b[..j], [b[j]] + b[j + 1..], x);
    CountAppend([b[j]], b[j + 1..], x);
    CountAppend(b[..j], b[j + 1..], x);
    assert ([b[j]] + b[j + 1..])[1..] == b[j + 1..];
    assert [b[j]][1..] == [];
  }

  /** The counts depend only on the multiset of values, not on their order. */
  lemma {:induction false} CountPermutation(a: seq<real>, b: seq<real>, x: real)
    requires multiset(a) == multiset(b)
    ensures CountBelow(a, x) == CountBelow(b, x)
    ensures CountAbove(a, x) == CountAbove(b, x)
    decreases |a|
  {
    assert |a| == |multiset(a)| == |multiset(b)| == |b|;
    if |a| > 0 {
      assert a[0] in multiset(b);
      var j :| 0 <= j < |b| && b[j] == a[0];
      var b' := b[..j] + b[j + 1..];
      MultisetRemove(b, j);
      MultisetTail(a);
      CountPermutation(a[1..], b', x);
      CountRemove(b, j, x);
    }
  }

  /** In a sorted sequence, if nothing from index m on is below x, at most m entries are. */
  lemma SortedCountBelow(t: seq<real>, m: nat, x: real)
    requires Sorted(t) && m <= |t|
    requires m < |t| ==> x <= t[m]
    ensures CountBelow(t, x) <= m
  {
    assert t == t[..m] + t[m..];
    CountAppend(t[..m], t[m..], x);
    NoneBelow(t[m..], x);
  }

  /** In a sorted sequence, if nothing before index m is above x, at most |t| - m entries are. */
  lemma SortedCountAbove(t: seq<real>, m: nat, x: real)
    requires Sorted(t) && m <= |t|
    requires m > 0 ==> t[m - 1] <= x
    ensures CountAbove(t, x) <= |t| - m
  {
    assert t == t[..m] + t[m..];
    CountAppend(t[..m], t[m..], x);
    NoneAbove(t[..m], x);
  }

  lemma {:induction false} NoneBelow(s: seq<real>, x: real)
    requires forall i :: 0 <= i < |s| ==> x <= s[i]
    ensures CountBelow(s, x) == 0
    decreases |s|
  {
    if |s| > 0 {
      NoneBelow(s[1..], x);
    }
  }

  lemma {:induction false} NoneAbove(s: seq<real>, x: real)
    requires forall i :: 0 <= i < |s| ==> s[i] <= x
    ensures CountAbove(s, x) == 0
    decreases |s|
  {
    if |s| > 0 {
      NoneAbove(s[1..], x);
    }
  }
}

=== FILE: transform1d.dfy ===
/** The single-axis Haar transform pair, in the layout [averages | half-differences]. */
module Transform1d {
  import opened Haar

  /** A signal whose entries are all `c`. */
  ghost predicate Constant(d: seq<real>, c: real) {
    forall p :: 0 <= p < |d| ==> d[p] == c
  }

  /** How a length splits into pairs: n/2 full pairs and, for odd n, one sample left over. */
  lemma HalfFacts(n: nat)
    ensures n % 2 == 0 ==> 2 * (n / 2) == n
    ensures n % 2 == 1 ==> 2 * (n / 2) == n - 1 && n >= 1
  {
  }

  /** Slot p of the forward transform. Slots below n/2 receive the low-pass tap sum of the
      pair (2p, 2p+1), slots from n/2 up to the last full pair the high-pass tap sum of pair
      p - n/2; the output buffer starts zero-filled, so for an odd length the last slot is 0. */
  function ForwardAt(d: seq<real>, p: nat): (r: real)
    requires p < |d|
    ensures p < |d| / 2 ==> r == (d[2 * p] + d[2 * p + 1]) / 2.0
    ensures |d| / 2 <= p < 2 * (|d| / 2) ==>
              r == (d[2 * (p - |d| / 2)] - d[2 * (p - |d| / 2) + 1]) / 2.0
    ensures p >= 2 * (|d| / 2) ==> r == 0.0
  {
    assert haar.lowPass[0] == 0.5 && haar.lowPass[1] == 0.5;
    assert haar.highPass[0] == 0.5 && haar.highPass[1] == -0.5;
    var half := |d| / 2;
    if p < half then
      haar.lowPass[0] * d[2 * p] + haar.lowPass[1] * d[2 * p + 1]
    else if p < 2 * half then
      haar.highPass[0] * d[2 * (p - half)] + haar.highPass[1] * d[2 * (p - half) + 1]
    else
      0.0
  }

  /** Slot p of the inverse transform. An even slot receives the low/high combination of
      pair p/2 divided by the first high-pass tap, an odd slot the other combination divided
      by the first low-pass tap; for an odd length the last slot stays 0. */
  function InverseAt(d: seq<real>, p: nat): (r: real)
    requires p < |d|
    ensures p < 2 * (|d| / 2) && p % 2 == 0 ==> r == d[p / 2] + d[p / 2 + |d| / 2]
    ensures p < 2 * (|d| / 2) && p % 2 == 1 ==> r == d[p / 2] - d[p / 2 + |d| / 2]
    ensures p >= 2 * (|d| / 2) ==> r == 0.0
  {
    assert haar.lowPass[0] == 0.5 && haar.lowPass[1] == 0.5;
    assert haar.highPass[0] == 0.5 && haar.highPass[1] == -0.5;
    var half := |d| / 2;
    if p < 2 * half then
      if p % 2 == 0 then
        (haar.lowPass[0] * d[p / 2] + haar.highPass[0] * d[p / 2 + half]) / haar.highPass[0]
      else
        (haar.lowPass[1] * d[p / 2] + haar.highPass[1] * d[p / 2 + half]) / haar.lowPass[0]
    else
      0.0
  }

  /** What the forward slots mean: averages in the low half, half-differences in the high
      half, 0 in the unpaired last slot. */
  lemma ForwardSlots(d: seq<real>, r: seq<real>)
    requires |r| == |d|
    requires forall p {:trigger r[p]} :: 0 <= p < |d| ==> r[p] == ForwardAt(d, p)
    ensures forall p {:trigger r[p]} :: 0 <= p < |d| / 2 ==> r[p] == (d[2 * p] + d[2 * p + 1]) / 2.0
    ensures forall p {:trigger r[p]} :: |d| / 2 <= p < 2 * (|d| / 2) ==>
              r[p] == (d[2 * (p - |d| / 2)] - d[2 * (p - |d| / 2) + 1]) / 2.0
    ensures 0 < |d| && |d| % 2 == 1 ==> r[|d| - 1] == 0.0
  {
    HalfFacts(|d|);
    var half := |d| / 2;
    forall p | 0 <= p < |d|
      ensures p < half ==> r[p] == (d[2 * p] + d[2 * p + 1]) / 2.0
      ensures half <= p < 2 * half ==>
                r[p] == (d[2 * (p - half)] - d[2 * (p - half) + 1]) / 2.0
      ensures |d| % 2 == 1 && p == |d| - 1 ==> r[p] == 0.0
    {
      assert r[p] == ForwardAt(d, p);
    }
  }

  /** What the inverse slots mean: each pair is rebuilt as (low + high, low - high). */
  lemma InverseSlots(d: seq<real>, r: seq<real>)
    requires |r| == |d|
    requires forall p {:trigger r[p]} :: 0 <= p < |d| ==> r[p] == InverseAt(d, p)
    ensures forall p {:trigger r[p]} :: 0 <= p < 2 * (|d| / 2) && p % 2 == 0 ==> r[p] == d[p / 2] + d[p / 2 + |d| / 2]
    ensures forall p {:trigger r[p]} :: 0 <= p < 2 * (|d| / 2) && p % 2 == 1 ==> r[p] == d[p / 2] - d[p / 2 + |d| / 2]
    ensures 0 < |d| && |d| % 2 == 1 ==> r[|d| - 1] == 0.0
  {
    HalfFacts(|d|);
    var half := |d| / 2;
    forall p | 0 <= p < |d|
      ensures p < 2 * half && p % 2 == 0 ==> r[p] == d[p / 2] + d[p / 2 + half]
      ensures p < 2 * half && p % 2 == 1 ==> r[p] == d[p / 2] - d[p / 2 + half]
      ensures |d| % 2 == 1 && p == |d| - 1 ==> r[p] == 0.0
    {
      assert r[p] == InverseAt(d, p);
    }
  }

  /** Forward transform: averages of the pairs in the first half, their half-differences in
      the second, and 0 in the last slot of an odd-length signal. */
  function Forward(d: seq<real>): (r: seq<real>)
    ensures |r| == |d|
    ensures forall p {:trigger r[p]} :: 0 <= p < |d| / 2 ==> r[p] == (d[2 * p] + d[2 * p + 1]) / 2.0
    ensures forall p {:trigger r[p]} :: |d| / 2 <= p < 2 * (|d| / 2) ==>
              r[p] == (d[2 * (p - |d| / 2)] - d[2 * (p - |d| / 2) + 1]) / 2.0
    ensures 0 < |d| && |d| % 2 == 1 ==> r[|d| - 1] == 0.0
  {
    var r := seq(|d|, p requires 0 <= p < |d| => ForwardAt(d, p));
    ForwardSlots(d, r);
    r
  }

  /** Inverse transform: each pair (2i, 2i+1) is rebuilt from its average and half-difference;
      the last slot of an odd-length signal is 0. */
  function Inverse(d: seq<real>): (r: seq<real>)
    ensures |r| == |d|
    ensures forall p {:trigger r[p]} :: 0 <= p < 2 * (|d| / 2) && p % 2 == 0 ==> r[p] == d[p / 2] + d[p / 2 + |d| / 2]
    ensures forall p {:trigger r[p]} :: 0 <= p < 2 * (|d| / 2) && p % 2 == 1 ==> r[p] == d[p / 2] - d[p / 2 + |d| / 2]
    ensures 0 < |d| && |d| % 2 == 1 ==> r[|d| - 1] == 0.0
  {
    var r := seq(|d|, p requires 0 <= p < |d| => InverseAt(d, p));
    InverseSlots(d, r);
    r
  }

  /** Inverse undoes Forward on every even-length signal, exactly. */
  lemma {:induction false} InverseForward(d: seq<real>)
    requires |d| % 2 == 0
    ensures Inverse(Forward(d)) == d
  {
    HalfFacts(|d|);
    var f := Forward(d);
    var r := Inverse(f);
    var half := |d| / 2;
    forall p | 0 <= p < |d|
      ensures r[p] == d[p]
    {
      var i := p / 2;
      var a, b := d[2 * i], d[2 * i + 1];
      assert f[i] == (a + b) / 2.0;
      assert f[i + half] == (d[2 * (i + half - half)] - d[2 * (i + half - half) + 1]) / 2.0;
      assert f[i + half] == (a - b) / 2.0;
      if p % 2 == 0 {
        assert r[p] == f[i] + f[i + half];
      } else {
        assert r[p] == f[i] - f[i + half];
      }
    }
  }

  /** Slot p of Forward(Inverse(d)) is d[p]: the average and half-difference of the
      rebuilt pair. */
  lemma ForwardInverseAt(d: seq<real>, p: nat)
    requires |d| % 2 == 0 && p < |d|
    ensures Forward(Inverse(d))[p] == d[p]
  {
    HalfFacts(|d|);
    var v := Inverse(d);
    var r := Forward(v);
    var half := |d| / 2;
    if p < half {
      InversePair(d, p);
      assert r[p] == (v[2 * p] + v[2 * p + 1]) / 2.0;
    } else {
      var i := p - half;
      InversePair(d, i);
      assert r[p] == (v[2 * i] - v[2 * i + 1]) / 2.0;
    }
  }

  /** Forward undoes Inverse on every even-length signal: the pair is a bijection. */
  lemma {:induction false} ForwardInverse(d: seq<real>)
    requires |d| % 2 == 0
    ensures Forward(Inverse(d)) == d
  {
    var r := Forward(Inverse(d));
    forall p | 0 <= p < |d|
      ensures r[p] == d[p]
    {
      ForwardInverseAt(d, p);
    }
  }

  /** The pair (2i, 2i+1) of the inverse, addressed by the pair index. */
  lemma InversePair(d: seq<real>, i: nat)
    requires i < |d| / 2
    ensures Inverse(d)[2 * i] == d[i] + d[i + |d| / 2]
    ensures Inverse(d)[2 * i + 1] == d[i] - d[i + |d| / 2]
  {
    assert (2 * i) / 2 == i && (2 * i) % 2 == 0;
    assert (2 * i + 1) / 2 == i && (2 * i + 1) % 2 == 1;
  }

  /** On an odd-length signal the round trip loses the last sample: it comes back as 0. */
  lemma OddLengthLosesLast(d: seq<real>)
    requires 0 < |d| && |d| % 2 == 1
    ensures Inverse(Forward(d))[|d| - 1] == 0.0
    ensures d[|d| - 1] != 0.0 ==> Inverse(Forward(d)) != d
  {
  }

  /** A constant signal puts the constant in the low half and 0 in the high half, including
      the unpaired last slot of an odd length. */
  lemma {:induction false} ForwardConstant(d: seq<real>, c: real)
    requires Constant(d, c)
    ensures forall p :: 0 <= p < |d| / 2 ==> Forward(d)[p] == c
    ensures forall p :: |d| / 2 <= p < |d| ==> Forward(d)[p] == 0.0
  {
    HalfFacts(|d|);
    var r := Forward(d);
    forall p | 0 <= p < |d|
      ensures r[p] == if p < |d| / 2 then c else 0.0
    {
      if p < 2 * (|d| / 2) {
        var i := if p < |d| / 2 then p else p - |d| / 2;
        assert d[2 * i] == c && d[2 * i + 1] == c;
      }
    }
  }
}

=== FILE: transform2d.dfy ===
/** The separable multi-level 2D Haar transform over the shrinking top-left square. */
module Transform2d {
  import opened Matrix
  import opened PowerOfTwo
  import T1 = Transform1d

  /** Side of the square worked on at level k of a matrix with `dims` rows: each level
      halves the previous side, rounding down. */
  function ActiveSide(dims: nat, k: nat): (c: nat)
    ensures c <= dims
  {
    if k == 0 then dims else ActiveSide(dims, k - 1) / 2
  }

  /** The side is the source's quotient dims / (1 << k) on a 64-bit `int`. At k = 63 the
      shift gives -2^63, and Go's truncating division of a non-negative `int` by it is 0,
      as dims / 2^63 is. */
  lemma {:induction false} ActiveSideIsQuotient(dims: nat, k: nat)
    ensures ActiveSide(dims, k) == dims / Pow2(k)
  {
    if k > 0 {
      ActiveSideIsQuotient(dims, k - 1);
      SideHalves(dims, k - 1);
    }
  }

  lemma {:induction false} SideMonotone(dims: nat, k: nat, k': nat)
    requires k <= k'
    ensures ActiveSide(dims, k') <= ActiveSide(dims, k)
  {
    if k < k' {
      SideMonotone(dims, k, k' - 1);
    }
  }

  /** A side that can be halved L times stays halvable for the remaining levels. */
  lemma {:induction false} HalvableSide(dims: nat, k: nat, L: nat)
    requires k <= L && Halvable(dims, L)
    ensures Halvable(ActiveSide(dims, k), L - k)
  {
    if k > 0 {
      HalvableSide(dims, k - 1, L);
    }
  }

  /** When 2^L divides the side, every level below L works on a square of even side. */
  lemma SideEven(dims: nat, k: nat, L: nat)
    requires k < L && Halvable(dims, L)
    ensures ActiveSide(dims, k) % 2 == 0
    ensures Halvable(dims, L - 1)
  {
    HalvableSide(dims, k, L);
    HalvableFewer(dims, L);
  }

  // ---------------------------------------------------------------------------
  // One pass over the first c rows or columns

  /** A c x c block of values, row by row. */
  ghost predicate IsBlock(b: seq<seq<real>>, c: nat) {
    |b| == c && Square(b)
  }

  /** `m` with its top-left c x c square overwritten by the block `b`. Both passes write
      their results back into the matrix this way. */
  function Splice(m: Matrix, c: nat, b: seq<seq<real>>): (r: Matrix)
    requires CoversSquare(m, c) && IsBlock(b, c)
    ensures SameShape(r, m) && SameOutside(r, m, c)
    ensures forall i :: 0 <= i < c ==> r[i][..c] == b[i]
  {
    var r := seq(|m|, i requires 0 <= i < |m| => if i < c then b[i] + m[i][c..] else m[i]);
    assert forall i :: 0 <= i < c ==> r[i][..c] == b[i];
    r
  }

  /** The block whose row i holds entry i of every column in `cols`: column j of the block
      is cols[j]. */
  function Transpose(cols: seq<seq<real>>, c: nat): (b: seq<seq<real>>)
    requires IsBlock(cols, c)
    ensures IsBlock(b, c)
    ensures forall i, j :: 0 <= i < c && 0 <= j < c ==> b[i][j] == cols[j][i]
  {
    seq(c, i requires 0 <= i < c => seq(c, j requires 0 <= j < c => cols[j][i]))
  }

  /** Writing back a transposed block puts cols[j] into column j. */
  lemma SpliceColumns(m: Matrix, c: nat, cols: seq<seq<real>>)
    requires CoversSquare(m, c) && IsBlock(cols, c)
    ensures CoversSquare(Splice(m, c, Transpose(cols, c)), c)
    ensures forall j :: 0 <= j < c ==> Column(Splice(m, c, Transpose(cols, c)), j, c) == cols[j]
  {
    var b := Transpose(cols, c);
    var r := Splice(m, c, b);
    forall j | 0 <= j < c
      ensures Column(r, j, c) == cols[j]
    {
      forall i | 0 <= i < c
        ensures Column(r, j, c)[i] == cols[j][i]
      {
        assert r[i][..c][j] == b[i][j];
      }
    }
  }

  /** Row pass: each of the first c rows has its first c entries replaced by their forward
      1D transform; everything else stays. */
  function RowPass(m: Matrix, c: nat): (r: Matrix)
    requires CoversSquare(m, c)
    ensures SameShape(r, m) && SameOutside(r, m, c)
    ensures forall i :: 0 <= i < c ==> r[i][..c] == T1.Forward(m[i][..c])
  {
    Splice(m, c, seq(c, i requires 0 <= i < c => T1.Forward(m[i][..c])))
  }

  /** Column pass: each of the first c columns has its first c entries replaced by their
      forward 1D transform; everything else stays. */
  function ColPass(m: Matrix, c: nat): (r: Matrix)
    requires CoversSquare(m, c)
    ensures SameShape(r, m) && SameOutside(r, m, c)
    ensures forall j :: 0 <= j < c ==> Column(r, j, c) == T1.Forward(Column(m, j, c))
  {
    var cols := seq(c, j requires 0 <= j < c => T1.Forward(Column(m, j, c)));
    SpliceColumns(m, c, cols);
    Splice(m, c, Transpose(cols, c))
  }

  /** Inverse row pass: the first c entries of each of the first c rows go through the
      inverse 1D transform. */
  function InvRowPass(m: Matrix, c: nat): (r: Matrix)
    requires CoversSquare(m, c)
    ensures SameShape(r, m) && SameOutside(r, m, c)
    ensures forall i :: 0 <= i < c ==> r[i][..c] == T1.Inverse(m[i][..c])
  {
    Splice(m, c, seq(c, i requires 0 <= i < c => T1.Inverse(m[i][..c])))
  }

  /** Inverse column pass: the first c entries of each of the first c columns go through the
      inverse 1D transform. */
  function InvColPass(m: Matrix, c: nat): (r: Matrix)
    requires CoversSquare(m, c)
    ensures SameShape(r, m) && SameOutside(r, m, c)
    ensures forall j :: 0 <= j < c ==> Column(r, j, c) == T1.Inverse(Column(m, j, c))
  {
    var cols := seq(c, j requires 0 <= j < c => T1.Inverse(Column(m, j, c)));
    SpliceColumns(m, c, cols);
    Splice(m, c, Transpose(cols, c))
  }

  // ---------------------------------------------------------------------------
  // One decomposition level

  /** One forward level on the top-left c x c square: the whole row pass, then the column
      pass over the row-transformed data. */
  function ForwardLevel(m: Matrix, c: nat): (r: Matrix)
    requires CoversSquare(m, c)
    ensures SameShape(r, m) && SameOutside(r, m, c)
  {
    ColPass(RowPass(m, c), c)
  }

  /** One inverse level on the top-left c x c square: the column pass first, then the row pass. */
  function InverseLevel(m: Matrix, c: nat): (r: Matrix)
    requires CoversSquare(m, c)
    ensures SameShape(r, m) && SameOutside(r, m, c)
  {
    InvRowPass(InvColPass(m, c), c)
  }

  // ---------------------------------------------------------------------------
  // The multi-level transforms

  /** Forward transform with `level` decomposition levels: level k = 0 .. level-1 works on
      the top-left ActiveSide(|m|, k) square. At level 64 the shift 1 << 64 is 0 and the
      division panics, so `level` is at most 64; the column pass indexes every row up to the
      side, so each row must be at least |m| long once any level runs. */
  function Forward(m: Matrix, level: nat): (r: Matrix)
    requires level <= 64
    requires level > 0 ==> Wide(m)
    ensures SameShape(r, m)
    ensures level == 0 ==> r == m
    ensures SameOutside(r, m, |m|)
    decreases level
  {
    if level == 0 then m
    else
      var prev := Forward(m, level - 1);
      ForwardLevel(prev, ActiveSide(|m|, level - 1))
  }

  /** Inverse transform: levels run from level-1 down to 0, each undoing the column pass
      and then the row pass. */
  function Inverse(m: Matrix, level: nat): (r: Matrix)
    requires level <= 64
    requires level > 0 ==> Wide(m)
    ensures SameShape(r, m)
    ensures level == 0 ==> r == m
    ensures SameOutside(r, m, |m|)
    decreases level
  {
    if level == 0 then m
    else
      var next := InverseLevel(m, ActiveSide(|m|, level - 1));
      Inverse(next, level - 1)
  }

  /** The last level of `Forward`, unfolded. */
  lemma ForwardUnfold(m: Matrix, level: nat)
    requires 0 < level <= 64 && Wide(m)
    ensures SameShape(Forward(m, level - 1), m)
    ensures Forward(m, level) == ForwardLevel(Forward(m, level - 1), ActiveSide(|m|, level - 1))
    ensures ActiveSide(|m|, level) == ActiveSide(|m|, level - 1) / 2
  {
  }

  /** The first level of `Inverse`, unfolded. */
  lemma InverseUnfold(m: Matrix, level: nat)
    requires 0 < level <= 64 && Wide(m)
    ensures SameShape(InverseLevel(m, ActiveSide(|m|, level - 1)), m)
    ensures Inverse(m, level) == Inverse(InverseLevel(m, ActiveSide(|m|, level - 1)), level - 1)
  {
  }

  // ---------------------------------------------------------------------------
  // Round trips

  /** Two matrices of the same shape that agree entry by entry are equal. */
  lemma Extensional(a: Matrix, b: Matrix)
    requires SameShape(a, b)
    requires forall i, j :: 0 <= i < |a| && 0 <= j < |a[i]| ==> a[i][j] == b[i][j]
    ensures a == b
  {
    forall i | 0 <= i < |a|
      ensures a[i] == b[i]
    {
    }
  }

  /** Matrices that agree outside the square and inside it are equal. */
  lemma EqualByParts(a: Matrix, b: Matrix, c: nat)
    requires SameShape(a, b) && CoversSquare(a, c) && SameOutside(a, b, c)
    requires forall i, j :: 0 <= i < c && 0 <= j < c ==> a[i][j] == b[i][j]
    ensures a == b
  {
    Extensional(a, b);
  }

  /** Agreeing outside the square is transitive. */
  lemma SameOutsideTrans(a: Matrix, b: Matrix, d: Matrix, c: nat)
    requires SameShape(a, b) && SameShape(b, d)
    requires SameOutside(a, b, c) && SameOutside(b, d, c)
    ensures SameShape(a, d) && SameOutside(a, d, c)
  {
  }

  /** The inverse row pass undoes the row pass on an even side. */
  lemma RowPassRoundTrip(m: Matrix, c: nat)
    requires CoversSquare(m, c) && c % 2 == 0
    ensures InvRowPass(RowPass(m, c), c) == m
    ensures RowPass(InvRowPass(m, c), c) == m
  {
    var x := RowPass(m, c);
    var r := InvRowPass(x, c);
    forall i, j | 0 <= i < c && 0 <= j < c
      ensures r[i][j] == m[i][j]
    {
      T1.InverseForward(m[i][..c]);
      assert r[i][..c][j] == r[i][j];
      assert m[i][..c][j] == m[i][j];
    }
    Extensional(r, m);
    var y := InvRowPass(m, c);
    var r' := RowPass(y, c);
    forall i, j | 0 <= i < c && 0 <= j < c
      ensures r'[i][j] == m[i][j]
    {
      T1.ForwardInverse(m[i][..c]);
      assert r'[i][..c][j] == r'[i][j];
      assert m[i][..c][j] == m[i][j];
    }
    Extensional(r', m);
  }

  /** Entry (i, j) of the square comes back from the column pass and its inverse: its
      column goes through the 1D transform and back. */
  lemma ColumnRoundTrip(m: Matrix, c: nat, i: nat, j: nat)
    requires CoversSquare(m, c) && c % 2 == 0 && i < c && j < c
    ensures InvColPass(ColPass(m, c), c)[i][j] == m[i][j]
  {
    var col := Column(m, j, c);
    var x := ColPass(m, c);
    var r := InvColPass(x, c);
    assert Column(x, j, c) == T1.Forward(col);
    T1.InverseForward(col);
    ColumnEntry(r, c, i, j, col);
  }

  /** Entry (i, j) of the square comes back from the inverse column pass and the column
      pass. */
  lemma InvColumnRoundTrip(m: Matrix, c: nat, i: nat, j: nat)
    requires CoversSquare(m, c) && c % 2 == 0 && i < c && j < c
    ensures ColPass(InvColPass(m, c), c)[i][j] == m[i][j]
  {
    var col := Column(m, j, c);
    var x := InvColPass(m, c);
    var r := ColPass(x, c);
    assert Column(x, j, c) == T1.Inverse(col);
    T1.ForwardInverse(col);
    ColumnEntry(r, c, i, j, col);
  }

  /** Inside the square, the column pass and its inverse give back every entry. */
  lemma {:induction false} ColPassRoundTripInside(m: Matrix, c: nat)
    requires CoversSquare(m, c) && c % 2 == 0
    ensures forall i, j :: 0 <= i < c && 0 <= j < c ==> InvColPass(ColPass(m, c), c)[i][j] == m[i][j]
  {
    var r := InvColPass(ColPass(m, c), c);
    forall i, j | 0 <= i < c && 0 <= j < c
      ensures r[i][j] == m[i][j]
    {
      ColumnRoundTrip(m, c, i, j);
    }
  }

  /** Inside the square, the inverse column pass and the column pass give back every entry. */
  lemma {:induction false} InvColPassRoundTripInside(m: Matrix, c: nat)
    requires CoversSquare(m, c) && c % 2 == 0
    ensures forall i, j :: 0 <= i < c && 0 <= j < c ==> ColPass(InvColPass(m, c), c)[i][j] == m[i][j]
  {
    var r := ColPass(InvColPass(m, c), c);
    forall i, j | 0 <= i < c && 0 <= j < c
      ensures r[i][j] == m[i][j]
    {
      InvColumnRoundTrip(m, c, i, j);
    }
  }

  /** The inverse column pass undoes the column pass on an even side. */
  lemma ColPassRoundTrip(m: Matrix, c: nat)
    requires CoversSquare(m, c) && c % 2 == 0
    ensures InvColPass(ColPass(m, c), c) == m
  {
    var x := ColPass(m, c);
    var r := InvColPass(x, c);
    ColPassRoundTripInside(m, c);
    SameOutsideTrans(r, x, m, c);
    EqualByParts(r, m, c);
  }

  /** The column pass undoes the inverse column pass on an even side. */
  lemma InvColPassRoundTrip(m: Matrix, c: nat)
    requires CoversSquare(m, c) && c % 2 == 0
    ensures ColPass(InvColPass(m, c), c) == m
  {
    var x := InvColPass(m, c);
    var r := ColPass(x, c);
    InvColPassRoundTripInside(m, c);
    SameOutsideTrans(r, x, m, c);
    EqualByParts(r, m, c);
  }

  /** One inverse level undoes one forward level on an even side, and the other way round. */
  lemma LevelRoundTrip(m: Matrix, c: nat)
    requires CoversSquare(m, c) && c % 2 == 0
    ensures InverseLevel(ForwardLevel(m, c), c) == m
    ensures ForwardLevel(InverseLevel(m, c), c) == m
  {
    ColPassRoundTrip(RowPass(m, c), c);
    RowPassRoundTrip(m, c);
    RowPassRoundTrip(InvColPass(m, c), c);
    InvColPassRoundTrip(m, c);
  }

  /** The inverse transform with the same number of levels recovers the matrix exactly,
      whenever the side is divisible by 2^level. */
  lemma {:induction false} InverseForward(m: Matrix, level: nat)
    requires level <= 64 && Wide(m)
    requires Halvable(|m|, level)
    ensures Inverse(Forward(m, level), level) == m
  {
    if level > 0 {
      var c := ActiveSide(|m|, level - 1);
      var prev := Forward(m, level - 1);
      var next := Forward(m, level);
      SideEven(|m|, level - 1, level);
      ForwardUnfold(m, level);
      assert next == ForwardLevel(prev, c);
      WideOfSameShape(next, m);
      InverseUnfold(next, level);
      LevelRoundTrip(prev, c);
      assert Inverse(next, level) == Inverse(prev, level - 1);
      InverseForward(m, level - 1);
      assert Inverse(prev, level - 1) == m;
      assert Inverse(next, level) == m;
    }
  }

  /** The forward transform undoes the inverse one under the same divisibility condition:
      the pair is a bijection on such matrices. */
  lemma {:induction false} ForwardInverse(m: Matrix, level: nat)
    requires level <= 64 && Wide(m)
    requires Halvable(|m|, level)
    ensures Forward(Inverse(m, level), level) == m
    decreases level
  {
    if level > 0 {
      var c := ActiveSide(|m|, level - 1);
      var y := InverseLevel(m, c);
      var z := Inverse(y, level - 1);
      SideEven(|m|, level - 1, level);
      InverseUnfold(m, level);
      assert Inverse(m, level) == z;
      WideOfSameShape(y, m);
      ForwardInverse(y, level - 1);
      WideOfSameShape(z, m);
      ForwardUnfold(z, level);
      assert Forward(z, level) == ForwardLevel(y, c);
      LevelRoundTrip(m, c);
    }
  }

  // ---------------------------------------------------------------------------
  // Confinement

  /** Coefficients outside the square of level k are final once level k is reached:
      later levels never overwrite them. */
  lemma {:induction false} DetailsKept(m: Matrix, k: nat, level: nat)
    requires k <= level <= 64 && Wide(m)
    ensures SameOutside(Forward(m, level), Forward(m, k), ActiveSide(|m|, k))
  {
    if k < level {
      DetailsKept(m, k, level - 1);
      SideMonotone(|m|, k, level - 1);
    }
  }

  // ---------------------------------------------------------------------------
  // Constant input

  /** Every entry of the top-left c x c square of `m` is `v`. */
  ghost predicate ConstantSquare(m: Matrix, c: nat, v: real)
    requires CoversSquare(m, c)
  {
    forall i, j :: 0 <= i < c && 0 <= j < c ==> m[i][j] == v
  }

  /** The row pass over a constant square: each row becomes [v .. v | 0 .. 0]. */
  lemma RowPassOnConstant(m: Matrix, c: nat, v: real)
    requires CoversSquare(m, c) && c % 2 == 0
    requires ConstantSquare(m, c, v)
    ensures forall i, j :: 0 <= i < c && 0 <= j < c ==>
              RowPass(m, c)[i][j] == if j < c / 2 then v else 0.0
  {
    var x := RowPass(m, c);
    forall i, j | 0 <= i < c && 0 <= j < c
      ensures x[i][j] == if j < c / 2 then v else 0.0
    {
      T1.ForwardConstant(m[i][..c], v);
      assert x[i][j] == x[i][..c][j];
    }
  }

  /** The column pass over a constant column j: it becomes [w .. w | 0 .. 0]. */
  lemma ColPassOnConstantColumn(x: Matrix, c: nat, j: nat, w: real)
    requires CoversSquare(x, c) && c % 2 == 0 && j < c
    requires T1.Constant(Column(x, j, c), w)
    ensures forall i :: 0 <= i < c ==> ColPass(x, c)[i][j] == if i < c / 2 then w else 0.0
  {
    var y := ColPass(x, c);
    T1.ForwardConstant(Column(x, j, c), w);
    assert forall i :: 0 <= i < c ==> Column(y, j, c)[i] == y[i][j];
  }

  /** The column pass over a square whose first c/2 columns hold v and the rest 0. */
  lemma ColPassOnConstantColumns(x: Matrix, c: nat, v: real)
    requires CoversSquare(x, c) && c % 2 == 0
    requires forall i, j :: 0 <= i < c && 0 <= j < c ==> x[i][j] == if j < c / 2 then v else 0.0
    ensures forall i, j :: 0 <= i < c && 0 <= j < c ==>
              ColPass(x, c)[i][j] == if i < c / 2 && j < c / 2 then v else 0.0
  {
    forall i, j | 0 <= i < c && 0 <= j < c
      ensures ColPass(x, c)[i][j] == if i < c / 2 && j < c / 2 then v else 0.0
    {
      var w := if j < c / 2 then v else 0.0;
      assert T1.Constant(Column(x, j, c), w);
      ColPassOnConstantColumn(x, c, j, w);
    }
  }

  /** One level over a constant square leaves the constant in the top-left quarter (the
      approximation) and 0 in the three detail quarters. */
  lemma LevelOnConstant(m: Matrix, c: nat, v: real)
    requires CoversSquare(m, c) && c % 2 == 0
    requires ConstantSquare(m, c, v)
    ensures forall i, j :: 0 <= i < c && 0 <= j < c ==>
              ForwardLevel(m, c)[i][j] == if i < c / 2 && j < c / 2 then v else 0.0
  {
    RowPassOnConstant(m, c, v);
    ColPassOnConstantColumns(RowPass(m, c), c, v);
  }

  /** Within the top-left n x n square, `r` holds v in its top-left c x c corner and 0 elsewhere. */
  ghost predicate ConstantCorner(r: Matrix, n: nat, c: nat, v: real) {
    forall i, j :: 0 <= i < n && 0 <= j < n && i < |r| && j < |r[i]| ==>
      r[i][j] == if i < c && j < c then v else 0.0
  }

  /** One level over a square matrix holding v in its top-left c x c square and 0 elsewhere
      leaves v only in the top-left c/2 x c/2 square. */
  lemma LevelOnZeroPadded(m: Matrix, c: nat, v: real)
    requires Square(m) && c <= |m| && c % 2 == 0
    requires ConstantCorner(m, |m|, c, v)
    ensures ConstantCorner(ForwardLevel(m, c), |m|, c / 2, v)
  {
    var r := ForwardLevel(m, c);
    assert ConstantSquare(m, c, v);
    LevelOnConstant(m, c, v);
    forall i, j | 0 <= i < |m| && 0 <= j < |m|
      ensures r[i][j] == if i < c / 2 && j < c / 2 then v else 0.0
    {
      if !(i < c && j < c) {
        assert r[i][j] == m[i][j];
      }
    }
  }

  /** One more level keeps the constant-corner shape, with the corner halved. */
  lemma ForwardStepOnConstant(m: Matrix, v: real, level: nat)
    requires 0 < level <= 64 && Square(m)
    requires Halvable(|m|, level)
    requires ConstantCorner(Forward(m, level - 1), |m|, ActiveSide(|m|, level - 1), v)
    ensures ConstantCorner(Forward(m, level), |m|, ActiveSide(|m|, level), v)
  {
    SideEven(|m|, level - 1, level);
    ForwardUnfold(m, level);
    SquareOfSameShape(Forward(m, level - 1), m);
    LevelOnZeroPadded(Forward(m, level - 1), ActiveSide(|m|, level - 1), v);
  }

  /** A constant square matrix whose side is divisible by 2^level comes out of the forward
      transform with the constant in the top-left ActiveSide(|m|, level) square and 0 in
      every detail coefficient. */
  lemma {:induction false} ForwardOnConstant(m: Matrix, v: real, level: nat)
    requires level <= 64 && Square(m)
    requires Halvable(|m|, level)
    requires ConstantSquare(m, |m|, v)
    ensures forall i, j :: 0 <= i < |m| && 0 <= j < |m| ==>
              Forward(m, level)[i][j] ==
                if i < ActiveSide(|m|, level) && j < ActiveSide(|m|, level) then v else 0.0
  {
    if level > 0 {
      SideEven(|m|, level - 1, level);
      ForwardOnConstant(m, v, level - 1);
      ForwardStepOnConstant(m, v, level);
    }
  }

}
